=== FILE: README.md ===
# Telegram chat-relay bot: the conversation engine

This project models the conversation engine of a small Telegram bot that
relays users' messages to a chat-completion service. The engine is the
state kept by `main.py`, the five handlers that change it, and `/history`,
which reads it:

- `message_history` is a process-wide `deque(maxlen=10)` of `{role, content}`
  entries, shared by every user.
- `context.user_data` holds each user's settings: `bot_role`, the persona
  text, and `setting_role`, the flag that says the next free-text message
  is the persona.
- `/start`, `/role`, `/reset`, `/history` and `/clear` are the commands,
  and `message` handles free text.

The model is a transition system. A `State` holds the shared history and a
map from user id to `Session`. `Bot.Step` answers one `Event` of one user
with the new state, the `Reply`, and the message list sent to the
completion service, if any. What that service answers is a parameter of the
step: `Ok(text)` or `Err`.

Modules:

- `Text`: Python's `str.strip()` over the `str.isspace()` code points,
  `str.capitalize()` for ASCII, and the cut-and-ellipsis rule.
- `History`: the bounded deque.
- `Sessions`: per-user settings.
- `Context`: the system instruction and the request.
- `Completion`: post-processing of an answer.
- `Listing`: the `/history` text.
- `Bot`: the handlers, `Step`, and runs of many steps.

The model follows the code as written:

- An empty answer is stored in the history as the empty string. Only the
  reply sent to the user is the fallback text.
- `/start` empties the history but leaves `setting_role` as it is.
- `/reset` empties the persona and ends capture but keeps the history,
  although the welcome text says it clears the conversation history.
- The history is one buffer shared by all users, not one per user.

## Model

| member | source | states |
|---|---|---|
| History.Append | main.py:15 | Appending keeps at most ten entries and is exactly the last ten of the old history plus the new entry. The new entry is last, and no entry appears from nowhere. |
| History.AppendKeepsPrevious | main.py:15 | After an append, the previous last entry sits just before the new one. |
| History.AppendAllKeepsLast | main.py:15 | Whatever entries are appended one by one, the deque holds exactly the last ten of everything, in append order. |
| History.LastNOfLastN | main.py:15 | Dropping the oldest entries early or late gives the same buffer. |
| History.FromEmpty | main.py:15 | Starting from an empty deque, the buffer is everything appended when that is at most ten entries, and otherwise the last ten. |
| Text.SkipSpace | main.py:107 | The scan stops at the first non-whitespace character, and everything it skipped is whitespace. |
| Text.DropSpace | main.py:107 | The scan drops only trailing whitespace and stops after a non-whitespace character. |
| Text.Strip | main.py:107 | The result is the text without its leading and trailing whitespace: it is a slice of the input with no whitespace at either end, and everything outside it is whitespace. |
| Text.StripsToUnique | main.py:107 | There is only one such stripped result, so the characterisation determines Strip. |
| Text.StripIdempotent | main.py:107 | Stripping twice is stripping once. |
| Text.Capitalize | main.py:53 | The first character is upper-cased and every other character is lower-cased; the length is kept. |
| Text.Clip | main.py:55-56 | A text within the limit is kept. A longer text becomes its first `keep` characters followed by "...". |
| Text.ClipIdempotent | main.py:55-56 | Cutting an already cut text changes nothing. |
| Completion.StoredAnswer | main.py:107-109 | The stored answer is the stripped answer, or its first 4000 characters plus "..." when longer, so it is at most 4003 characters. It is empty exactly when the stripped answer is empty. |
| Completion.ReplyText | main.py:113-114 | The reply is never empty. An empty stored answer is replied as the fallback sentence, and any other stored answer as itself. |
| Completion.StoredAnswerIdempotent | main.py:107-109 | Post-processing a stored answer again leaves it unchanged. |
| Context.SystemContent | main.py:85-88 | The instruction starts with the fixed baseline. It is the baseline alone exactly when the persona is empty; otherwise a space, the persona and a full stop follow. |
| Context.PersonaRoundTrip | main.py:85-88 | The persona can be read back out of the system instruction. |
| Context.SystemContentInjective | main.py:85-88 | Different personas give different system instructions. |
| Context.Request | main.py:89-91 | The request is the system message followed by every history entry in order. |
| Context.BuildMessages | main.py:84-91 | Building the list one entry at a time, as the handler does, yields the request. |
| Listing.Label | main.py:53 | The roles are shown as "User", "Assistant" and "System". |
| Listing.Shown | main.py:54-56 | Shown content is at most 100 characters. Longer content is cut to its first 97 characters plus "...". |
| Listing.Render | main.py:47-51 | The listing is the fixed notice exactly when the history is empty; otherwise it starts with the header. |
| Listing.Line | main.py:53-57 | An entry's paragraph is its capitalised role, ": ", its shown content and a blank line. |
| Listing.FormatLine | main.py:53-57 | Building one paragraph as the loop body does, cutting the content in place, yields the entry's paragraph. |
| Listing.LinesAppend | main.py:52-57 | The listing of two stretches of history is the two listings one after the other. |
| Listing.LinesSplit | main.py:52-57 | Each entry contributes exactly its own paragraph, in history order. |
| Listing.LinesLength | main.py:52-57 | The listing grows at most linearly with the number of entries, whatever their lengths. |
| Listing.RenderHistory | main.py:47-59 | Building the text entry by entry, as the handler does, yields the listing. |
| Sessions.Lookup | main.py:77 | A user never seen reads as no persona and not capturing. |
| Sessions.Put | main.py:30-81 | Replacing one user's settings leaves every other user's settings unchanged. |
| Sessions.BeginCapture | main.py:33 | `/role` turns capture on and keeps the current persona. |
| Sessions.Capture | main.py:78-79 | The captured text becomes the persona verbatim, and capture ends. |
| Sessions.ResetPersona | main.py:39-40 | `/reset` restores the defaults. |
| Bot.InitialState | main.py:15 | At start-up the history is empty, the state is valid, and every user has no persona and is not capturing. |
| Bot.RepliesNonEmpty | main.py:24-125 | No reply the bot sends is empty. |
| Bot.ReplyTexts | main.py:28-124 | Each reply's text is exactly the string its handler sends: the welcome, the role prompt, the reset notice, the cleared notice, the listing or its empty notice, "Role has been set: " followed by the persona, the stored answer or the fallback, and the apology. |
| Bot.OnStart | main.py:24-28 | `/start` empties the shared history, changes no user's settings, and does not call the service. |
| Bot.OnRole | main.py:30-34 | `/role` turns capture on for its sender only, keeps the persona and the history, and asks for the role. |
| Bot.OnReset | main.py:36-41 | `/reset` empties the sender's persona and ends capture. Other users and the history are untouched. |
| Bot.OnHistory | main.py:43-59 | `/history` changes nothing and lists the current history. |
| Bot.HistoryText | main.py:47-57 | The `/history` reply is the notice exactly when the history is empty; otherwise it is the header followed by the entries' paragraphs. |
| Bot.OnClear | main.py:61-69 | `/clear` empties the history and changes no settings. |
| Bot.OnMessage | main.py:77-83 | While capturing, free text becomes the persona, capture ends, the history is untouched and the service is not called. Otherwise the text is a chat turn. No other user's settings change. |
| Bot.Chat | main.py:83-125 | The user's entry is appended before the call. The request is built from the history that includes it. A failed call leaves the user's entry and replies with the apology. A successful call appends the stored answer and replies with it. |
| Bot.Step | main.py:24-125 | Every step keeps the state valid. The service is called exactly for free text from a user who is not capturing. |
| Bot.RoleIdempotent | main.py:30-34 | `/role` twice is `/role` once. |
| Bot.ResetIdempotent | main.py:36-41 | `/reset` twice is `/reset` once. |
| Bot.ClearingIdempotent | main.py:61-69 | `/clear` or `/start` a second time changes nothing. |
| Bot.OnlyOwnSettings | main.py:30-81 | No event changes the settings of a user other than its sender. |
| Bot.PersonaCaptureIgnoresAnswer | main.py:77-81 | Capturing a persona does not depend on the completion service. |
| Bot.ChatRequest | main.py:83-91 | The request is the system message, carrying the persona when one is set, followed by the history with the user's new entry last. |
| Bot.ChatStepPersona | main.py:85-89 | In a chat turn, the request's system message is the instruction built from the sender's persona. |
| Bot.ChatSuccess | main.py:107-119 | After a successful call, the user's entry and then the stored answer are the last two history entries. An empty answer is stored empty but replied as the fallback. |
| Bot.ChatFailure | main.py:120-125 | After a failed call, the user's entry stays last in the history and the reply is the apology. |
| Bot.ChatHistory | main.py:83-111 | A chat turn keeps the last ten of the old history followed by what it appended. |
| Bot.StepClears | main.py:24-69 | `/start` (line 25) and `/clear` (line 65) leave the history empty. |
| Bot.StepHistory | main.py:24-125 | Every other step keeps the last ten of the old history followed by the entries it appended. |
| Bot.RunHistory | main.py:15 | Over any run without `/start` or `/clear`, the history is the last ten of the old history plus everything appended, in order. |
| Bot.RunFromInitial | main.py:15 | From start-up, with no clearing, the history is the last ten entries ever appended. |
| Bot.PirateConversation | main.py:71-91 | In the scenario "Hello" answered "Hi there", then `/role` and "You are a pirate", the persona is captured without touching the two entries. The next request carries it in its system message. |

## Left out

- The Telegram transport is left out: polling, the handler registration at `main.py:127-140`, `send_message` and `reply_text`. The handlers' routing is the `Event` datatype. Routing only non-command text to `message` is assumed.
- The completion call itself is left out: its model name, `max_tokens`, temperature and `top_p`, the network, and token-usage logging. Its result is the `answer` parameter. Every exception it can raise is `Err`, including a missing or `None` content.
- A failure of `send_message` after the answer was appended is not modelled separately. The model treats every exception as happening before line 111, so a failure stores no answer.
- Logging, `user_name` and reading `.env` and the configuration are left out, because they do not affect state or replies.
- Concurrency between handlers is left out. Steps are taken one at a time, in arrival order.
- Bot.Step: the reply is a `Reply` value rather than text. `Reply.Message` gives the text that is sent.
- Text.Capitalize: handles ASCII letters only, which covers the role names it is applied to. Python's full Unicode case mapping is not modelled.
- Text.Strip: works on Dafny `char`s, which are Unicode scalar values. A Python `str` can also hold lone surrogates (U+D800 to U+DFFF), which a Dafny string cannot, so such strings are outside the model. No surrogate is whitespace: `Text.Spaces` holds exactly the 29 code points of `str.isspace()`. On every string the model can hold, `Strip` agrees with `str.strip()`.

=== FILE: bot.dfy ===
/**
  The bot's conversation engine as a transition system. A state is the
  shared history plus every user's settings; an event is one of the five
  commands or a free-text message; one step answers one event with a new
  state and the reply. What the completion service answers is a parameter
  of the step: a generated text or a failure.
 */
module Bot {
  import opened History
  import opened Sessions
  import opened Context
  import opened Completion
  import opened Listing
  import Text

  datatype Option<T> = None | Some(value: T)

  datatype State = State(history: seq<Entry>, sessions: Registry)

  /** What every reachable state satisfies: the history is within the
      deque's bound and holds only user and assistant entries. */
  predicate Valid(st: State) {
    && Bounded(st.history)
    && forall e :: e in st.history ==> e.role != System
  }

  /** The state when the process starts. */
  const Initial: State := State([], map[])

  /** At start-up the history is empty and every user has the default
      settings: no persona, not capturing. */
  lemma InitialState(u: UserId)
    ensures Valid(Initial)
    ensures Initial.history == []
    ensures Lookup(Initial.sessions, u) == Session("", false)
  {
  }

  /** An inbound event, already classified by the chat transport. */
  datatype Event = Start | SetRole | Reset | ShowHistory | Clear | FreeText(text: string)

  /** The message sent back to the user. */
  datatype Reply =
    | Welcome                        // after /start
    | AskRole                        // after /role
    | RoleReset                      // after /reset
    | HistoryCleared                 // after /clear
    | HistoryListing(entries: seq<Entry>)   // after /history: the history as listed
    | RoleSet(persona: string)       // after a captured persona
    | Answer(stored: string)         // after a successful call: the stored answer
    | Apology                        // after a failed call
  {
    /** The text the bot sends. */
    function Message(): string {
      match this
      case Welcome => StartText
      case AskRole => RolePrompt
      case RoleReset => ResetText
      case HistoryCleared => ClearedText
      case HistoryListing(h) => Render(h)
      case RoleSet(p) => RoleSetPrefix + p
      case Answer(s) => ReplyText(s)
      case Apology => ApologyText
    }
  }

  /** The result of one step: the new state, the reply, and the message
      list sent to the completion service, if any. */
  datatype Outcome = Outcome(state: State, reply: Reply, request: Option<seq<Entry>>)

  const StartText: string := "Hey! I'm your AI assistant. \n Use /role to set the role of the AI, \n /reset to clear the conversation history, \n /history to view the conversation history, \n /clear to clear the conversation history but keep the role setting."
  const RolePrompt: string := "Please, write what role should AI refer to"
  const ResetText: string := "Role reset completed"
  const ClearedText: string := "Conversation history cleared."
  const RoleSetPrefix: string := "Role has been set: "

  /** No reply is ever an empty message. */
  lemma RepliesNonEmpty(r: Reply)
    ensures r.Message() != ""
  {
    match r
    case HistoryListing(h) =>
      assert Render(h) == EmptyText || |Render(h)| >= |Header|;
    case RoleSet(p) =>
      assert |RoleSetPrefix + p| >= |RoleSetPrefix|;
    case _ =>
  }

  /** The text of every reply, as the handlers send it. */
  lemma ReplyTexts(p: string, stored: string, h: seq<Entry>)
    ensures Welcome.Message() == "Hey! I'm your AI assistant. \n Use /role to set the role of the AI, \n /reset to clear the conversation history, \n /history to view the conversation history, \n /clear to clear the conversation history but keep the role setting."
    ensures AskRole.Message() == "Please, write what role should AI refer to"
    ensures RoleReset.Message() == "Role reset completed"
    ensures HistoryCleared.Message() == "Conversation history cleared."
    ensures h == [] ==> HistoryListing(h).Message() == "No conversation history yet."
    ensures h != [] ==> HistoryListing(h).Message() == "Conversation History:\n\n" + Lines(h)
    ensures RoleSet(p).Message() == "Role has been set: " + p
    ensures stored == "" ==> Answer(stored).Message() == "I don't have a response for that. Please try again."
    ensures stored != "" ==> Answer(stored).Message() == stored
    ensures Apology.Message() == "Sorry, I encountered an error processing your request. Please try again."
  {
  }

  // ---------------------------------------------------------------------
  // The handlers, one per command and one for free text

  /** `/start`: empties the shared history and sends the welcome text. The
      settings of every user stay as they are, persona capture included. */
  function OnStart(st: State): (o: Outcome)
    requires Valid(st)
    ensures Valid(o.state)
    ensures o.state.history == [] && o.state.sessions == st.sessions
    ensures o.reply == Welcome && o.request == None
  {
    Outcome(st.(history := []), Welcome, None)
  }

  /** `/role`: the user's next free text will be taken as the persona. The
      current persona, the other users and the history are untouched. */
  function OnRole(st: State, u: UserId): (o: Outcome)
    requires Valid(st)
    ensures Valid(o.state)
    ensures Lookup(o.state.sessions, u).settingRole
    ensures Lookup(o.state.sessions, u).botRole == Lookup(st.sessions, u).botRole
    ensures forall v :: v != u ==> Lookup(o.state.sessions, v) == Lookup(st.sessions, v)
    ensures o.state.history == st.history
    ensures o.reply == AskRole && o.request == None
  {
    Outcome(st.(sessions := Put(st.sessions, u, BeginCapture(Lookup(st.sessions, u)))), AskRole, None)
  }

  /** `/reset`: the user's persona is emptied and capture ends. The history
      is kept, although the welcome text announces that it is cleared. */
  function OnReset(st: State, u: UserId): (o: Outcome)
    requires Valid(st)
    ensures Valid(o.state)
    ensures Lookup(o.state.sessions, u) == Session("", false)
    ensures forall v :: v != u ==> Lookup(o.state.sessions, v) == Lookup(st.sessions, v)
    ensures o.state.history == st.history
    ensures o.reply == RoleReset && o.request == None
  {
    Outcome(st.(sessions := Put(st.sessions, u, ResetPersona(Lookup(st.sessions, u)))), RoleReset, None)
  }

  /** `/history`: changes nothing and sends the listing, or the fixed
      notice when the history is empty. */
  function OnHistory(st: State): (o: Outcome)
    requires Valid(st)
    ensures o.state == st && o.request == None
    ensures o.reply.HistoryListing? && o.reply.entries == st.history
  {
    Outcome(st, HistoryListing(st.history), None)
  }

  /** The text of `/history`: the fixed notice exactly when the history is
      empty, otherwise the header followed by one paragraph per entry. */
  lemma HistoryText(st: State)
    requires Valid(st)
    ensures st.history == [] <==> OnHistory(st).reply.Message() == EmptyText
    ensures st.history != [] ==> OnHistory(st).reply.Message() == Header + Lines(st.history)
  {
  }

  /** `/clear`: empties the shared history; nobody's settings change. */
  function OnClear(st: State): (o: Outcome)
    requires Valid(st)
    ensures Valid(o.state)
    ensures o.state.history == [] && o.state.sessions == st.sessions
    ensures o.reply == HistoryCleared && o.request == None
  {
    Outcome(st.(history := []), HistoryCleared, None)
  }

  /** A chat turn in normal mode: the user's entry goes into the history
      first, the request is built from the whole history, and the answer,
      if there is one, is appended after the call. */
  function Chat(st: State, u: UserId, text: string, answer: ProviderResult): (o: Outcome)
    requires Valid(st)
    ensures Valid(o.state)
    ensures o.state.sessions == st.sessions
    ensures o.request == Some(Request(Append(st.history, Entry(User, text)), Lookup(st.sessions, u).botRole))
    ensures answer.Err? ==>
              o.state.history == Append(st.history, Entry(User, text)) && o.reply == Apology
    ensures answer.Ok? ==>
              && o.state.history == Append(Append(st.history, Entry(User, text)), Entry(Assistant, StoredAnswer(answer.text)))
              && o.reply == Answer(StoredAnswer(answer.text))
  {
    var withUser := Append(st.history, Entry(User, text));
    var request := Request(withUser, Lookup(st.sessions, u).botRole);
    match answer
    case Err =>
      Outcome(st.(history := withUser), Apology, Some(request))
    case Ok(raw) =>
      var stored := StoredAnswer(raw);
      Outcome(st.(history := Append(withUser, Entry(Assistant, stored))), Answer(stored), Some(request))
  }

  /** Free text. While the user is capturing a persona, the text becomes the
      persona verbatim and capture ends; the history is untouched, the
      completion service is not asked, and the reply echoes the text.
      Otherwise it is a chat turn. */
  function OnMessage(st: State, u: UserId, t: string, answer: ProviderResult): (o: Outcome)
    requires Valid(st)
    ensures Valid(o.state)
    ensures forall v :: v != u ==> Lookup(o.state.sessions, v) == Lookup(st.sessions, v)
    ensures Lookup(st.sessions, u).settingRole ==>
              && Lookup(o.state.sessions, u) == Session(t, false)
              && o.state.history == st.history
              && o.request == None
              && o.reply == RoleSet(t)
    ensures !Lookup(st.sessions, u).settingRole ==> o == Chat(st, u, t, answer)
  {
    var s := Lookup(st.sessions, u);
    if s.settingRole then
      Outcome(st.(sessions := Put(st.sessions, u, Capture(s, t))), RoleSet(t), None)
    else
      Chat(st, u, t, answer)
  }

  /** The five commands. */
  function Command(st: State, u: UserId, ev: Event): (o: Outcome)
    requires Valid(st) && !ev.FreeText?
    ensures Valid(o.state)
    ensures o.request == None
  {
    match ev
    case Start => OnStart(st)
    case SetRole => OnRole(st, u)
    case Reset => OnReset(st, u)
    case ShowHistory => OnHistory(st)
    case Clear => OnClear(st)
  }

  /** One event of user `u`; `answer` is what the completion service
      answers if the event reaches it. */
  function Step(st: State, u: UserId, ev: Event, answer: ProviderResult): (o: Outcome)
    requires Valid(st)
    ensures Valid(o.state)
    ensures o.request.Some? <==> ev.FreeText? && !Lookup(st.sessions, u).settingRole
  {
    match ev
    case FreeText(t) => OnMessage(st, u, t, answer)
    case _ => Command(st, u, ev)
  }

  // ---------------------------------------------------------------------
  // Properties of the handlers

  /** `/role` twice is `/role` once. */
  lemma RoleIdempotent(st: State, u: UserId)
    requires Valid(st)
    ensures OnRole(OnRole(st, u).state, u).state == OnRole(st, u).state
  {
  }

  /** `/reset` twice is `/reset` once. */
  lemma ResetIdempotent(st: State, u: UserId)
    requires Valid(st)
    ensures OnReset(OnReset(st, u).state, u).state == OnReset(st, u).state
  {
  }

  /** `/clear` or `/start` a second time finds the history already empty. */
  lemma ClearingIdempotent(st: State)
    requires Valid(st)
    ensures OnClear(OnClear(st).state).state == OnClear(st).state
    ensures OnStart(OnStart(st).state).state == OnStart(st).state
  {
  }

  /** No event changes the settings of a user other than its sender. */
  lemma OnlyOwnSettings(st: State, u: UserId, ev: Event, answer: ProviderResult, v: UserId)
    requires Valid(st) && v != u
    ensures Lookup(Step(st, u, ev, answer).state.sessions, v) == Lookup(st.sessions, v)
  {
  }

  /** The outcome of persona capture does not depend on what the completion
      service would have answered. */
  lemma PersonaCaptureIgnoresAnswer(st: State, u: UserId, t: string, a1: ProviderResult, a2: ProviderResult)
    requires Valid(st) && Lookup(st.sessions, u).settingRole
    ensures Step(st, u, FreeText(t), a1) == Step(st, u, FreeText(t), a2)
  {
  }

  /** In normal mode the user's entry is appended before the call, and the
      request is the system message followed by the whole history, the new
      entry last. The system message carries the persona when one is set. */
  lemma ChatRequest(st: State, u: UserId, t: string, answer: ProviderResult)
    requires Valid(st)
    ensures var o := Chat(st, u, t, answer);
            var persona := Lookup(st.sessions, u).botRole;
            var sent := Append(st.history, Entry(User, t));
            && |o.request.value| == |sent| + 1
            && o.request.value[0] == Entry(System, SystemContent(persona))
            && o.request.value[1..] == sent
            && o.request.value[|o.request.value| - 1] == Entry(User, t)
            && (persona == "" ==> o.request.value[0].content == Baseline)
            && (persona != "" ==> o.request.value[0].content == Baseline + " " + persona + ".")
  {
    var o := Chat(st, u, t, answer);
    var sent := Append(st.history, Entry(User, t));
    assert o.request.value[1..] == sent;
  }

  /** A successful call appends the stored answer right after the user's
      entry. The stored answer is the stripped answer, cut to 4000
      characters plus "..." when longer; an empty answer is stored as the
      empty string while the user is sent the fixed fallback text. */
  lemma {:induction false} ChatSuccess(st: State, u: UserId, t: string, raw: string)
    requires Valid(st)
    ensures var o := Chat(st, u, t, Ok(raw));
            var h := o.state.history;
            && |h| >= 2
            && h[|h| - 2] == Entry(User, t)
            && h[|h| - 1] == Entry(Assistant, StoredAnswer(raw))
            && (Text.Strip(raw) == "" ==> h[|h| - 1].content == "" && o.reply.Message() == Fallback)
            && (Text.Strip(raw) != "" ==> o.reply.Message() == h[|h| - 1].content)
  {
    var o := Chat(st, u, t, Ok(raw));
    ChatSuccessHistory(st, u, t, raw);
    AnswerMessage(StoredAnswer(raw));
  }

  /** The text sent for a stored answer, restated from `ReplyText` and
      `ReplyTexts` for `ChatSuccess` alone: with this fact in a lemma of its
      own, that proof stays well inside the solver's budget on every seed,
      and without it some seeds run out of resource. */
  lemma AnswerMessage(stored: string)
    ensures stored == "" ==> Answer(stored).Message() == Fallback
    ensures stored != "" ==> Answer(stored).Message() == stored
  {
  }

  lemma {:induction false} ChatSuccessHistory(st: State, u: UserId, t: string, raw: string)
    requires Valid(st)
    ensures var h := Chat(st, u, t, Ok(raw)).state.history;
            && |h| >= 2
            && h[|h| - 2] == Entry(User, t)
            && h[|h| - 1] == Entry(Assistant, StoredAnswer(raw))
  {
    var withUser := Append(st.history, Entry(User, t));
    var h := Chat(st, u, t, Ok(raw)).state.history;
    AppendKeepsPrevious(withUser, Entry(Assistant, StoredAnswer(raw)));
  }

  /** A failed call leaves the user's entry as the last one in the history,
      adds no answer, and replies with the apology. */
  lemma ChatFailure(st: State, u: UserId, t: string)
    requires Valid(st)
    ensures var o := Chat(st, u, t, Err);
            && o.state.history == Append(st.history, Entry(User, t))
            && o.state.history[|o.state.history| - 1] == Entry(User, t)
            && o.reply == Apology
  {
  }

  // ---------------------------------------------------------------------
  // The history over many steps

  /** The entries a step appends to the history, in order: none for a
      command or a captured persona, the user's entry for a chat turn, and
      the stored answer after it when the call succeeded. */
  function Logged(st: State, u: UserId, ev: Event, answer: ProviderResult): seq<Entry> {
    match ev
    case FreeText(t) =>
      if Lookup(st.sessions, u).settingRole then []
      else if answer.Err? then [Entry(User, t)]
      else [Entry(User, t), Entry(Assistant, StoredAnswer(answer.text))]
    case _ => []
  }

  predicate Clears(ev: Event) {
    ev == Start || ev == Clear
  }

  /** A chat turn keeps the last ten of the old history followed by the
      user's entry and, after a successful call, the stored answer. */
  lemma ChatHistory(st: State, u: UserId, t: string, answer: ProviderResult)
    requires Valid(st) && !Lookup(st.sessions, u).settingRole
    ensures Chat(st, u, t, answer).state.history == LastN(st.history + Logged(st, u, FreeText(t), answer), Capacity)
  {
    var user := Entry(User, t);
    if answer.Ok? {
      var asst := Entry(Assistant, StoredAnswer(answer.text));
      assert Logged(st, u, FreeText(t), answer) == [user, asst];
      LastNOfLastN(st.history + [user], [asst], Capacity);
      assert st.history + [user] + [asst] == st.history + [user, asst];
    }
  }

  /** A command appends nothing: it empties the history or leaves it. */
  lemma CommandHistory(st: State, u: UserId, ev: Event)
    requires Valid(st) && !ev.FreeText?
    ensures Clears(ev) ==> Command(st, u, ev).state.history == []
    ensures !Clears(ev) ==> Command(st, u, ev).state.history == st.history
  {
  }

  /** Free text appends what Logged says it appends. */
  lemma MessageHistory(st: State, u: UserId, t: string, answer: ProviderResult)
    requires Valid(st)
    ensures OnMessage(st, u, t, answer).state.history == LastN(st.history + Logged(st, u, FreeText(t), answer), Capacity)
  {
    if Lookup(st.sessions, u).settingRole {
      assert st.history + [] == st.history;
    } else {
      ChatHistory(st, u, t, answer);
    }
  }

  /** `/start` and `/clear` leave the history empty. */
  lemma StepClears(st: State, u: UserId, ev: Event, answer: ProviderResult)
    requires Valid(st) && Clears(ev)
    ensures Step(st, u, ev, answer).state.history == []
  {
    CommandHistory(st, u, ev);
  }

  /** Every other step keeps the last ten of the old history followed by
      what it appended. */
  lemma StepHistory(st: State, u: UserId, ev: Event, answer: ProviderResult)
    requires Valid(st)
    ensures !Clears(ev) ==>
              Step(st, u, ev, answer).state.history == LastN(st.history + Logged(st, u, ev, answer), Capacity)
  {
    if ev.FreeText? {
      TextStepHistory(st, u, ev.text, answer);
    } else {
      CommandStepHistory(st, u, ev, answer);
    }
  }

  lemma TextStepHistory(st: State, u: UserId, t: string, answer: ProviderResult)
    requires Valid(st)
    ensures Step(st, u, FreeText(t), answer).state.history
            == LastN(st.history + Logged(st, u, FreeText(t), answer), Capacity)
  {
    MessageHistory(st, u, t, answer);
    assert Step(st, u, FreeText(t), answer) == OnMessage(st, u, t, answer);
  }

  lemma CommandStepHistory(st: State, u: UserId, ev: Event, answer: ProviderResult)
    requires Valid(st) && !ev.FreeText?
    ensures !Clears(ev) ==>
              Step(st, u, ev, answer).state.history == LastN(st.history + Logged(st, u, ev, answer), Capacity)
  {
    CommandHistory(st, u, ev);
    assert Step(st, u, ev, answer) == Command(st, u, ev);
    assert Logged(st, u, ev, answer) == [];
    assert st.history + [] == st.history;
  }

  /** One event of one user, with what the completion service answers if
      the event reaches it. */
  datatype Turn = Turn(user: UserId, event: Event, answer: ProviderResult)

  function StepTurn(st: State, t: Turn): (r: State)
    requires Valid(st)
    ensures Valid(r)
  {
    Step(st, t.user, t.event, t.answer).state
  }

  /** The state after handling `turns` in order. */
  function Run(st: State, turns: seq<Turn>): (r: State)
    requires Valid(st)
    ensures Valid(r)
    decreases |turns|
  {
    if turns == [] then st else Run(StepTurn(st, turns[0]), turns[1..])
  }

  /** Everything appended to the history while handling `turns`, in order. */
  function RunLog(st: State, turns: seq<Turn>): seq<Entry>
    requires Valid(st)
    decreases |turns|
  {
    if turns == [] then []
    else
      var t := turns[0];
      Logged(st, t.user, t.event, t.answer) + RunLog(StepTurn(st, t), turns[1..])
  }

  /** Over any run with no `/start` or `/clear`, the history is the last ten
      of the old history followed by everything appended, in append order. */
  lemma {:induction false} RunHistory(st: State, turns: seq<Turn>)
    requires Valid(st)
    requires forall i :: 0 <= i < |turns| ==> !Clears(turns[i].event)
    ensures Run(st, turns).history == LastN(st.history + RunLog(st, turns), Capacity)
    decreases |turns|
  {
    if turns == [] {
      assert st.history + [] == st.history;
    } else {
      var t := turns[0];
      var next := StepTurn(st, t);
      var logged := Logged(st, t.user, t.event, t.answer);
      var rest := RunLog(next, turns[1..]);
      StepHistory(st, t.user, t.event, t.answer);
      assert next.history == LastN(st.history + logged, Capacity);
      RunHistory(next, turns[1..]);
      LastNOfLastNSplit(st.history, logged, rest, Capacity);
    }
  }

  /** From the initial state, with no `/start` or `/clear`, the history is
      the last ten entries ever appended, in append order. */
  lemma RunFromInitial(turns: seq<Turn>)
    requires forall i :: 0 <= i < |turns| ==> !Clears(turns[i].event)
    ensures var log := RunLog(Initial, turns);
            && (|log| <= Capacity ==> Run(Initial, turns).history == log)
            && (|log| > Capacity ==> Run(Initial, turns).history == log[|log| - Capacity..])
  {
    RunHistory(Initial, turns);
    assert Initial.history + RunLog(Initial, turns) == RunLog(Initial, turns);
  }

  // ---------------------------------------------------------------------
  // A worked conversation

  /** The history after "Hello" was answered with "Hi there". */
  const Greeted: seq<Entry> := [Entry(User, "Hello"), Entry(Assistant, "Hi there")]

  const Pirate: string := "You are a pirate"

  /** "Hi there" has no surrounding whitespace and is short, so it is
      stored as it is. */
  lemma HiThereStored()
    ensures StoredAnswer("Hi there") == "Hi there"
  {
    assert Text.Strip("Hi there") == "Hi there" by {
      assert !Text.IsSpace('H') && !Text.IsSpace('e');
      assert Text.StripsAt("Hi there", "Hi there", 0);
      Text.StripsToUnique("Hi there", Text.Strip("Hi there"), "Hi there");
    }
  }

  lemma {:induction false} GreetingStep(u: UserId)
    ensures Step(Initial, u, FreeText("Hello"), Ok("Hi there")).state == State(Greeted, map[])
  {
    HiThereStored();
    var withUser := Append([], Entry(User, "Hello"));
    assert withUser == [Entry(User, "Hello")];
    assert Append(withUser, Entry(Assistant, "Hi there")) == Greeted;
    assert Step(Initial, u, FreeText("Hello"), Ok("Hi there")) == Chat(Initial, u, "Hello", Ok("Hi there"));
  }

  lemma AskRoleStep(u: UserId, later: ProviderResult)
    ensures Step(State(Greeted, map[]), u, SetRole, later).state == State(Greeted, map[u := Session("", true)])
  {
  }

  lemma CaptureStep(u: UserId, later: ProviderResult)
    ensures Step(State(Greeted, map[u := Session("", true)]), u, FreeText(Pirate), later).state
            == State(Greeted, map[u := Session(Pirate, false)])
  {
  }

  /** The next chat turn's system message carries the captured persona. */
  lemma {:induction false} PirateRequest(u: UserId, next: string, later: ProviderResult)
    ensures var c := Step(State(Greeted, map[u := Session(Pirate, false)]), u, FreeText(next), later).request.value[0].content;
            c == SystemContent(Pirate) && PersonaOf(c) == Pirate
  {
    var st := State(Greeted, map[u := Session(Pirate, false)]);
    assert Lookup(st.sessions, u) == Session(Pirate, false);
    ChatStepPersona(st, u, next, later);
    PersonaRoundTrip(Pirate);
  }

  /** A chat turn's system message carries the sender's persona. */
  lemma ChatStepPersona(st: State, u: UserId, t: string, answer: ProviderResult)
    requires Valid(st) && !Lookup(st.sessions, u).settingRole
    ensures Step(st, u, FreeText(t), answer).request.value[0].content
            == SystemContent(Lookup(st.sessions, u).botRole)
  {
    assert Step(st, u, FreeText(t), answer) == Chat(st, u, t, answer);
  }

  /** "Hello" answered with "Hi there", then `/role` and "You are a pirate":
      the persona is captured without touching the two history entries, and
      the next chat turn's system message is the baseline followed by the
      persona, and the persona reads back out of it. */
  lemma PirateConversation(u: UserId, next: string, later: ProviderResult)
    ensures var s1 := Step(Initial, u, FreeText("Hello"), Ok("Hi there")).state;
            var s2 := Step(s1, u, SetRole, later).state;
            var s3 := Step(s2, u, FreeText(Pirate), later).state;
            var o4 := Step(s3, u, FreeText(next), later);
            && s1.history == [Entry(User, "Hello"), Entry(Assistant, "Hi there")]
            && Lookup(s2.sessions, u).settingRole
            && s3.history == s1.history
            && Lookup(s3.sessions, u) == Session(Pirate, false)
            && o4.request.value[0].content == SystemContent(Pirate)
            && PersonaOf(o4.request.value[0].content) == Pirate
  {
    GreetingStep(u);
    AskRoleStep(u, later);
    CaptureStep(u, later);
    PirateRequest(u, next, later);
  }
}

=== FILE: completion.dfy ===
/**
  What the bot does with the completion service's answer: strip it, cut
  it to 4000 characters, store it, and reply with a fixed phrase in place
  of an empty answer.
 */
module Completion {
  import opened Text

  /** The outcome of one call to the completion service: the generated text,
      or a failure of any kind (network, provider error, malformed or
      missing content). */
  datatype ProviderResult = Ok(text: string) | Err

  /** Longest answer kept whole. */
  const AnswerLimit: nat := 4000

  /** Replied in place of an empty answer. */
  const Fallback: string := "I don't have a response for that. Please try again."

  /** Replied when the completion call fails. */
  const ApologyText: string := "Sorry, I encountered an error processing your request. Please try again."

  /** The answer as stored in the history: stripped, and when longer than
      4000 characters, its first 4000 characters followed by "...". */
  function StoredAnswer(raw: string): (r: string)
    ensures |r| <= AnswerLimit + 3
    ensures |Strip(raw)| <= AnswerLimit ==> r == Strip(raw)
    ensures |Strip(raw)| > AnswerLimit ==>
              && |r| == AnswerLimit + 3
              && r[..AnswerLimit] == Strip(raw)[..AnswerLimit]
              && r[AnswerLimit..] == "..."
    ensures r == "" <==> Strip(raw) == ""
  {
    Clip(Strip(raw), AnswerLimit, AnswerLimit)
  }

  /** The text sent back to the user for a stored answer. */
  function ReplyText(stored: string): (r: string)
    ensures r != ""
    ensures stored != "" ==> r == stored
    ensures stored == "" ==> r == Fallback
  {
    if stored == "" then Fallback else stored
  }

  /** Post-processing an answer that is already a stored answer changes
      nothing: stripping and cutting are both idempotent on it. */
  lemma {:induction false} StoredAnswerIdempotent(raw: string)
    ensures StoredAnswer(StoredAnswer(raw)) == StoredAnswer(raw)
  {
    var s := Strip(raw);
    var r := StoredAnswer(raw);
    StripIdempotent(raw);
    if |s| > AnswerLimit {
      assert r == s[..AnswerLimit] + "...";
      assert !IsSpace(r[0]) by {
        assert Edgeless(s);
        assert r[0] == s[0];
      }
      assert r[|r| - 1] == '.';
      assert StripsAt(r, r, 0);
      StripsToUnique(r, Strip(r), r);
    }
    ClipIdempotent(s, AnswerLimit, AnswerLimit);
  }
}

=== FILE: context.dfy ===
/**
  Building the completion request: a system message made of a fixed
  baseline instruction and the user's persona, followed by the whole
  history in chronological order.
 */
module Context {
  import opened History

  const Baseline: string := "You are a helpful, concise assistant that provides accurate and direct answers. Check all instructions before responding."

  /** The system instruction: the baseline alone when no persona is set,
      otherwise the baseline, a space, the persona and a full stop. */
  function SystemContent(persona: string): (r: string)
    ensures |Baseline| <= |r| && r[..|Baseline|] == Baseline
    ensures persona == "" <==> r == Baseline
    ensures persona != "" ==> r[|Baseline|] == ' ' && r[|r| - 1] == '.' && |r| == |Baseline| + |persona| + 2
    ensures persona != "" ==> r[|Baseline| + 1..|r| - 1] == persona
  {
    if persona != "" then Baseline + " " + persona + "." else Baseline
  }

  /** Inverse of SystemContent: reads the persona back out of a system
      instruction. */
  function PersonaOf(content: string): string {
    if |content| > |Baseline| + 1 then content[|Baseline| + 1..|content| - 1] else ""
  }

  /** The persona can always be recovered from the system instruction, so
      two different personas never produce the same instruction. */
  lemma PersonaRoundTrip(persona: string)
    ensures PersonaOf(SystemContent(persona)) == persona
  {
    if persona != "" {
      var c := SystemContent(persona);
      assert c == Baseline + " " + persona + ".";
      assert c[|Baseline| + 1..|c| - 1] == persona;
    }
  }

  lemma SystemContentInjective(p: string, q: string)
    requires SystemContent(p) == SystemContent(q)
    ensures p == q
  {
    PersonaRoundTrip(p);
    PersonaRoundTrip(q);
  }

  /** The message list sent to the completion service: the system message
      first, then every history entry in order. */
  function Request(history: seq<Entry>, persona: string): (r: seq<Entry>)
    ensures |r| == |history| + 1
    ensures r[0] == Entry(System, SystemContent(persona))
    ensures forall i :: 0 <= i < |history| ==> r[i + 1] == history[i]
  {
    [Entry(System, SystemContent(persona))] + history
  }

  /** The list built the way the handler builds it: the system message, then
      one history entry at a time. */
  method BuildMessages(history: seq<Entry>, persona: string) returns (messages: seq<Entry>)
    ensures messages == Request(history, persona)
  {
    var systemContent := Baseline;
    if persona != "" {
      systemContent := systemContent + " " + persona + ".";
    }
    messages := [Entry(System, systemContent)];
    var i := 0;
    while i < |history|
      invariant 0 <= i <= |history|
      invariant messages == [Entry(System, SystemContent(persona))] + history[..i]
    {
      messages := messages + [history[i]];
      i := i + 1;
    }
    assert history[..i] == history;
  }
}

=== FILE: history.dfy ===
/**
  The conversation history: one process-wide buffer of role-tagged
  entries that holds at most ten of them and drops the oldest one when a
  new entry arrives while it is full (a `deque` with `maxlen=10`).
 */
module History {

  /** The `role` tag of a chat message. History entries are only ever
      `User` or `Assistant`; `System` appears in completion requests. */
  datatype Role = System | User | Assistant {
    /** The tag as the completion service spells it. */
    function Name(): string {
      match this
      case System => "system"
      case User => "user"
      case Assistant => "assistant"
    }
  }

  datatype Entry = Entry(role: Role, content: string)

  /** The `maxlen` of the history deque. */
  const Capacity: nat := 10

  predicate Bounded(h: seq<Entry>) {
    |h| <= Capacity
  }

  /** Reference definition: the last (at most) `n` elements of `s`, in order. */
  function LastN<T>(s: seq<T>, n: nat): (r: seq<T>)
    ensures |r| <= n && |r| <= |s|
    ensures |s| <= n ==> r == s
    ensures |s| > n ==> |r| == n
    ensures r == s[|s| - |r|..]
  {
    if |s| <= n then s else s[|s| - n..]
  }

  /** Appending to the deque: once it is full, the head entry is dropped. */
  function Append(h: seq<Entry>, e: Entry): (r: seq<Entry>)
    requires Bounded(h)
    ensures Bounded(r)
    ensures r == LastN(h + [e], Capacity)
    ensures |r| > 0 && r[|r| - 1] == e
    ensures forall x :: x in r ==> x in h || x == e
  {
    if |h| == Capacity then
      assert (h + [e])[1..] == h[1..] + [e];
      h[1..] + [e]
    else
      h + [e]
  }

  /** After two appends the first entry sits just before the second. */
  lemma AppendKeepsPrevious(h: seq<Entry>, e: Entry)
    requires Bounded(h) && |h| > 0
    ensures var r := Append(h, e);
            |r| >= 2 && r[|r| - 2] == h[|h| - 1]
  {
  }

  /** Appending the entries of `es` one after another. */
  function AppendAll(h: seq<Entry>, es: seq<Entry>): (r: seq<Entry>)
    requires Bounded(h)
    ensures Bounded(r)
    decreases |es|
  {
    if es == [] then h else AppendAll(Append(h, es[0]), es[1..])
  }

  /** Keeping the last `n` of a sequence, extending it, and keeping the
      last `n` again is the same as keeping the last `n` of the extension. */
  lemma LastNOfLastN<T>(s: seq<T>, t: seq<T>, n: nat)
    ensures LastN(LastN(s, n) + t, n) == LastN(s + t, n)
  {
    if |s| > n {
      var k := |s| - n;
      assert s + t == s[..k] + (LastN(s, n) + t);
    }
  }

  /** The same, with the extension arriving in two pieces. */
  lemma {:induction false} LastNOfLastNSplit<T>(s: seq<T>, l: seq<T>, r: seq<T>, n: nat)
    ensures LastN(LastN(s + l, n) + r, n) == LastN(s + (l + r), n)
  {
    var a := s + l;
    assert a + r == s + (l + r);
    LastNOfLastN(a, r, n);
  }

  /** Whatever the entries appended, the buffer holds exactly the last ten
      entries of everything it held and everything appended since, in
      append order. */
  lemma {:induction false} AppendAllKeepsLast(h: seq<Entry>, es: seq<Entry>)
    requires Bounded(h)
    ensures AppendAll(h, es) == LastN(h + es, Capacity)
    decreases |es|
  {
    if es == [] {
      assert h + es == h;
    } else {
      var h1 := Append(h, es[0]);
      calc {
        AppendAll(h, es);
        AppendAll(h1, es[1..]);
        { AppendAllKeepsLast(h1, es[1..]); }
        LastN(h1 + es[1..], Capacity);
        { LastNOfLastN(h + [es[0]], es[1..], Capacity); }
        LastN(h + [es[0]] + es[1..], Capacity);
        { assert h + [es[0]] + es[1..] == h + es; }
        LastN(h + es, Capacity);
      }
    }
  }

  /** Starting from an empty buffer: after any number of appends the
      buffer holds the last ten appended entries (all of them when there
      were at most ten). */
  lemma FromEmpty(es: seq<Entry>)
    ensures |es| <= Capacity ==> AppendAll([], es) == es
    ensures |es| > Capacity ==> AppendAll([], es) == es[|es| - Capacity..]
  {
    AppendAllKeepsLast([], es);
    assert [] + es == es;
  }
}

=== FILE: listing.dfy ===
/**
  The `/history` listing: a header, then one paragraph per history entry
  holding the capitalised role, ": " and the content, where a content
  longer than 100 characters is shown as its first 97 characters and "...".
  Rendering only reads the history.
 */
module Listing {
  import opened Text
  import opened History

  const EmptyText: string := "No conversation history yet."
  const Header: string := "Conversation History:\n\n"

  /** Contents longer than this are cut for display. */
  const DisplayLimit: nat := 100
  /** How many characters of a cut content are shown before "...". */
  const DisplayKeep: nat := 97

  /** The role as shown: the capitalised tag. */
  function Label(role: Role): (r: string)
    ensures role == User ==> r == "User"
    ensures role == Assistant ==> r == "Assistant"
    ensures role == System ==> r == "System"
  {
    Capitalize(role.Name())
  }

  /** The content as shown: at most 100 characters. */
  function Shown(content: string): (r: string)
    ensures |r| <= DisplayLimit
    ensures |content| <= DisplayLimit ==> r == content
    ensures |content| > DisplayLimit ==>
              && |r| == DisplayLimit
              && r[..DisplayKeep] == content[..DisplayKeep]
              && r[DisplayKeep..] == "..."
  {
    Clip(content, DisplayLimit, DisplayKeep)
  }

  /** An entry's paragraph: its role as shown, ": ", its content as shown,
      and a blank line. */
  function Line(e: Entry): (r: string)
    ensures var n := |Label(e.role)|;
            && |r| == n + 2 + |Shown(e.content)| + 2
            && r[..n] == Label(e.role)
            && r[n..n + 2] == ": "
            && r[n + 2..|r| - 2] == Shown(e.content)
            && r[|r| - 2..] == "\n\n"
  {
    Label(e.role) + ": " + Shown(e.content) + "\n\n"
  }

  /** The paragraphs of the entries, one per entry, oldest first. */
  function Paragraphs(h: seq<Entry>): (ps: seq<string>)
    ensures |ps| == |h|
    ensures forall i :: 0 <= i < |h| ==> ps[i] == Line(h[i])
  {
    seq(|h|, i requires 0 <= i < |h| => Line(h[i]))
  }

  /** The paragraphs joined in order. */
  function Concat(ps: seq<string>): string
    decreases |ps|
  {
    if |ps| == 0 then "" else Concat(ps[..|ps| - 1]) + ps[|ps| - 1]
  }

  /** The listing without its header. */
  function Lines(h: seq<Entry>): string {
    Concat(Paragraphs(h))
  }

  /** The reply to `/history`. */
  function Render(h: seq<Entry>): (r: string)
    ensures h == [] <==> r == EmptyText
    ensures h != [] ==> |Header| <= |r| && r[..|Header|] == Header
  {
    if h == [] then EmptyText else Header + Lines(h)
  }

  lemma {:induction false} ConcatSnoc(ps: seq<string>, p: string)
    ensures Concat(ps + [p]) == Concat(ps) + p
  {
    assert (ps + [p])[..|ps|] == ps;
  }

  lemma {:induction false} ConcatAppend(a: seq<string>, b: seq<string>)
    ensures Concat(a + b) == Concat(a) + Concat(b)
    decreases |b|
  {
    if |b| == 0 {
      assert a + b == a;
    } else {
      var init := b[..|b| - 1];
      var last := b[|b| - 1];
      assert b == init + [last];
      assert a + b == (a + init) + [last];
      ConcatSnoc(a + init, last);
      ConcatAppend(a, init);
      ConcatSnoc(init, last);
    }
  }

  /** The listing of two consecutive stretches of history is the listing
      of the first followed by the listing of the second. */
  lemma LinesAppend(h1: seq<Entry>, h2: seq<Entry>)
    ensures Lines(h1 + h2) == Lines(h1) + Lines(h2)
  {
    assert Paragraphs(h1 + h2) == Paragraphs(h1) + Paragraphs(h2);
    ConcatAppend(Paragraphs(h1), Paragraphs(h2));
  }

  /** Entry `i` contributes exactly its own paragraph, between the
      paragraphs of the entries before it and those after it. */
  lemma LinesSplit(h: seq<Entry>, i: nat)
    requires i < |h|
    ensures Lines(h) == Lines(h[..i]) + Line(h[i]) + Lines(h[i + 1..])
  {
    var ps := Paragraphs(h);
    assert ps == (Paragraphs(h[..i]) + [Line(h[i])]) + Paragraphs(h[i + 1..]);
    ConcatAppend(Paragraphs(h[..i]) + [Line(h[i])], Paragraphs(h[i + 1..]));
    ConcatSnoc(Paragraphs(h[..i]), Line(h[i]));
  }

  /** The listing of the first i + 1 entries extends that of the first i
      entries by the paragraph of entry i. */
  lemma LinesPrefix(h: seq<Entry>, i: nat)
    requires i < |h|
    ensures Lines(h[..i + 1]) == Lines(h[..i]) + Line(h[i])
  {
    assert Paragraphs(h[..i + 1]) == Paragraphs(h[..i]) + [Line(h[i])];
    ConcatSnoc(Paragraphs(h[..i]), Line(h[i]));
  }

  lemma {:induction false} ConcatLength(ps: seq<string>, bound: nat)
    requires forall i :: 0 <= i < |ps| ==> |ps[i]| <= bound
    ensures |Concat(ps)| <= |ps| * bound
    decreases |ps|
  {
    if |ps| > 0 {
      ConcatLength(ps[..|ps| - 1], bound);
    }
  }

  /** Every paragraph is short: "Assistant" is the longest label and the
      content shown is at most 100 characters, so the listing grows at most
      linearly in the number of entries, whatever their contents. */
  lemma LinesLength(h: seq<Entry>)
    ensures |Lines(h)| <= |h| * (9 + 2 + DisplayLimit + 2)
  {
    forall i | 0 <= i < |h|
      ensures |Paragraphs(h)[i]| <= 9 + 2 + DisplayLimit + 2
    {
      assert |Label(h[i].role)| <= 9;
    }
    ConcatLength(Paragraphs(h), 9 + 2 + DisplayLimit + 2);
  }

  /** Regrouping a three-part concatenation. Stated on its own so that the
      loop in RenderHistory does not have to find it among its other facts. */
  lemma JoinAssoc(a: string, b: string, c: string)
    ensures (a + b) + c == a + (b + c)
  {
  }

  /** One paragraph built the way the handler builds it. */
  method FormatLine(e: Entry) returns (line: string)
    ensures line == Line(e)
  {
    var content := e.content;
    if |content| > DisplayLimit {
      content := content[..DisplayKeep] + "...";
    }
    line := Label(e.role) + ": " + content + "\n\n";
  }

  /** The listing built the way the handler builds it: the header, then one
      paragraph per entry. */
  method RenderHistory(h: seq<Entry>) returns (text: string)
    ensures text == Render(h)
  {
    if |h| == 0 {
      return EmptyText;
    }
    text := Header;
    var i := 0;
    assert Lines(h[..0]) == "";
    while i < |h|
      invariant 0 <= i <= |h|
      invariant text == Header + Lines(h[..i])
    {
      var line := FormatLine(h[i]);
      LinesPrefix(h, i);
      JoinAssoc(Header, Lines(h[..i]), line);
      text := text + line;
      i := i + 1;
    }
    assert h[..i] == h;
  }
}

=== FILE: sessions.dfy ===
/**
  Per-user settings (`context.user_data`): the persona text `bot_role`
  and the flag `setting_role` that says the next free-text message is the
  persona rather than a chat turn.
 */
module Sessions {

  type UserId = int

  datatype Session = Session(botRole: string, settingRole: bool)

  /** What a user who never touched a setting reads: `bot_role` defaults to
      the empty string and a missing `setting_role` is falsy. */
  const Fresh := Session("", false)

  type Registry = map<UserId, Session>

  /** The settings of user `u`, with the defaults for a user not yet seen. */
  function Lookup(reg: Registry, u: UserId): (s: Session)
    ensures u !in reg ==> s == Fresh
  {
    if u in reg then reg[u] else Fresh
  }

  /** Replace the settings of `u`; nobody else's settings change. */
  function Put(reg: Registry, u: UserId, s: Session): (r: Registry)
    ensures Lookup(r, u) == s
    ensures forall v :: v != u ==> Lookup(r, v) == Lookup(reg, v)
  {
    reg[u := s]
  }

  /** `/role`: the next free text will be taken as the persona; the current
      persona stays until then. */
  function BeginCapture(s: Session): (r: Session)
    ensures r.settingRole
    ensures r.botRole == s.botRole
  {
    s.(settingRole := true)
  }

  /** Free text while capturing: the text becomes the persona verbatim and
      capturing ends. */
  function Capture(s: Session, text: string): (r: Session)
    ensures !r.settingRole
    ensures r.botRole == text
  {
    Session(text, false)
  }

  /** `/reset`: back to the defaults. */
  function ResetPersona(s: Session): (r: Session)
    ensures r == Fresh
  {
    Fresh
  }
}

=== FILE: text.dfy ===
/**
  String helpers the bot applies to message text: Python's `str.strip()`,
  `str.capitalize()` (for the ASCII role names it is used on), and the
  "cut to a prefix and add an ellipsis" rule used both for answers and for
  the history listing.
 */
module Text {

  /** The code points for which Python's `str.isspace()` is true. */
  const Spaces: set<char> := {
    '\t', '\n', '\U{0B}', '\U{0C}', '\r',
    '\U{1C}', '\U{1D}', '\U{1E}', '\U{1F}', ' ',
    '\U{85}', '\U{A0}', '\U{1680}',
    '\U{2000}', '\U{2001}', '\U{2002}', '\U{2003}', '\U{2004}', '\U{2005}',
    '\U{2006}', '\U{2007}', '\U{2008}', '\U{2009}', '\U{200A}',
    '\U{2028}', '\U{2029}', '\U{202F}', '\U{205F}', '\U{3000}'
  }

  predicate IsSpace(c: char) {
    c in Spaces
  }

  /** Every character of `s` outside the index range [i, j) is whitespace. */
  predicate SpaceOutside(s: string, i: int, j: int) {
    forall k :: 0 <= k < |s| && !(i <= k < j) ==> IsSpace(s[k])
  }

  /** Neither the first nor the last character is whitespace. */
  predicate Edgeless(s: string) {
    s == [] || (!IsSpace(s[0]) && !IsSpace(s[|s| - 1]))
  }

  /** `r` is what is left of `s` once whitespace is removed from both ends,
      `r` starting at index `i` of `s`. */
  predicate StripsAt(s: string, r: string, i: int) {
    && 0 <= i <= |s| - |r|
    && r == s[i..i + |r|]
    && Edgeless(r)
    && SpaceOutside(s, i, i + |r|)
  }

  ghost predicate StripsTo(s: string, r: string) {
    exists i :: StripsAt(s, r, i)
  }

  /** The index of the first non-whitespace character of `s` at or after
      `from`, or `|s|` when there is none. */
  function SkipSpace(s: string, from: nat): (n: nat)
    requires from <= |s|
    ensures from <= n <= |s|
    ensures forall k :: from <= k < n ==> IsSpace(s[k])
    ensures n < |s| ==> !IsSpace(s[n])
    decreases |s| - from
  {
    if from < |s| && IsSpace(s[from]) then SkipSpace(s, from + 1) else from
  }

  /** The end of `s[lo..hi]` once its trailing whitespace is dropped. */
  function DropSpace(s: string, lo: nat, hi: nat): (n: nat)
    requires lo <= hi <= |s|
    ensures lo <= n <= hi
    ensures forall k :: n <= k < hi ==> IsSpace(s[k])
    ensures n > lo ==> !IsSpace(s[n - 1])
    decreases hi
  {
    if hi > lo && IsSpace(s[hi - 1]) then DropSpace(s, lo, hi - 1) else hi
  }

  /** Python's `s.strip()` with no argument. */
  function Strip(s: string): (r: string)
    ensures StripsTo(s, r)
    ensures |r| <= |s|
  {
    var i := SkipSpace(s, 0);
    var j := DropSpace(s, i, |s|);
    assert StripsAt(s, s[i..j], i) by {
      assert j > i ==> s[i..j][0] == s[i] && s[i..j][j - i - 1] == s[j - 1];
    }
    s[i..j]
  }

  /** Any two strings that `s` strips to are the same string: StripsTo
      pins the result down, so it serves as a reference definition of Strip. */
  lemma {:induction false} StripsToUnique(s: string, r1: string, r2: string)
    requires StripsTo(s, r1) && StripsTo(s, r2)
    ensures r1 == r2
  {
    var i1 :| StripsAt(s, r1, i1);
    var i2 :| StripsAt(s, r2, i2);
    if r1 != [] && r2 != [] {
      // both results begin at the first non-space character of s ...
      assert s[i1] == r1[0] && s[i2] == r2[0];
      assert i1 == i2;
      // ... and end at the last one
      assert s[i1 + |r1| - 1] == r1[|r1| - 1];
      assert s[i2 + |r2| - 1] == r2[|r2| - 1];
      assert |r1| == |r2|;
    }
  }

  /** Stripping twice changes nothing more than stripping once. */
  lemma StripIdempotent(s: string)
    ensures Strip(Strip(s)) == Strip(s)
  {
    var r := Strip(s);
    assert StripsAt(r, r, 0);
    StripsToUnique(r, Strip(r), r);
  }

  function UpperAscii(c: char): char {
    if 'a' <= c <= 'z' then (c as int - 32) as char else c
  }

  function LowerAscii(c: char): char {
    if 'A' <= c <= 'Z' then (c as int + 32) as char else c
  }

  /** Python's `str.capitalize()` restricted to ASCII letters: the first
      character upper-cased, every other one lower-cased. */
  function Capitalize(s: string): (r: string)
    ensures |r| == |s|
    ensures s != [] ==> r[0] == UpperAscii(s[0])
    ensures forall i :: 0 < i < |s| ==> r[i] == LowerAscii(s[i])
  {
    if s == [] then [] else [UpperAscii(s[0])] + seq(|s| - 1, i requires 0 <= i < |s| - 1 => LowerAscii(s[i + 1]))
  }

  /** The text is kept when it has at most `limit` characters; otherwise its
      first `keep` characters are kept and "..." is added. */
  function Clip(s: string, limit: nat, keep: nat): (r: string)
    requires keep <= limit
    ensures |s| <= limit ==> r == s
    ensures |s| > limit ==> |r| == keep + 3 && r[..keep] == s[..keep] && r[keep..] == "..."
    ensures |r| <= if limit < keep + 3 then keep + 3 else limit
  {
    if |s| > limit then s[..keep] + "..." else s
  }

  /** Clipping an already clipped text leaves it as it is, whichever of the
      two branches the first clip took. */
  lemma ClipIdempotent(s: string, limit: nat, keep: nat)
    requires keep <= limit
    ensures Clip(Clip(s, limit, keep), limit, keep) == Clip(s, limit, keep)
  {
    var r := Clip(s, limit, keep);
    if |r| > limit {
      assert r == r[..keep] + r[keep..];
    }
  }
}
